=== FILE: README.md ===
# shared_memory — a Dafny model of the segment and its buffer accessors

This project models the Windows build of the `shared_memory` Node.js addon class:
one named, fixed-size shared memory segment, how its constructor resolves the
arguments `(name, size, global = false, host = true)`, which mapping call it
issues, and how the three write paths (`writeSync`/`writeData`, the `data`
setter `setString`, the `buffer` setter `setBuffer`) and the two reads
(`readString`, `readBuffer`) act on the mapped bytes. The destructor's
unmap-then-close-once release and the trimming of Windows error messages in
`GetLastErrorAsString` are modelled too.

A segment is an immutable `SharedMemory.Segment` record: the exposed `name`,
`size`, `host` and `global` attributes, the view as a `seq<bv8>` of exactly
`size` bytes, and the mapping handle as an `Option<Handle>`. Every operation is a
pure function from a segment to a new one. A write returns a `WriteResult` that
carries the segment after the write and whether it was accepted, so "a refused
write changes nothing" is stated on the returned segment.

The operating system is a parameter. `Construct` is told what
`CreateFileMapping`/`OpenFileMapping` and `MapViewOfFile` answered: a handle or
a view's bytes, or the failed call's error code and formatted text, from which
the reported message is built as `GetLastErrorAsString` builds it.
`PlatformRequest` states which of the two mapping calls the constructor issues
and with which arguments.

Files:
- `wrappers.dfy` — `Option`, `Result`, `Outcome`.
- `win32_error.dfy` — module `Win32Error`: the message trim.
- `shared_memory.dfy` — module `SharedMemory`: segment state, construction, size check, destructor.
- `buffer_access.dfy` — module `BufferAccess`: writes and reads.
- `properties.dfy` — module `SegmentProperties`: lemmas relating the operations.

Points where the code departs from what it evidently intends (the model follows the code):
- Text writes store no terminator byte. `memcpy` copies exactly the string's bytes, so
  a text reads back only when a zero byte already follows it (`TextRoundTripIff`).
  See Findings.
- The size check compares an unsigned `size_t` with zero, so only a size of 0 is refused.
  `Construct` and `PlatformRequest` follow the code; `ConstructIntended` applies the
  intended check. See Findings.

Other behaviour of the code that the model keeps:
- Each instance's destructor closes its own mapping handle, for host and client alike; on
  Windows the mapping object goes away when its last handle is closed.
- A host adopts an existing mapping of the same name: the code does not check whether
  `CreateFileMapping` reported that the name already existed. test.js:65 relies on this when
  it creates a second host on "SomeMemory" while the segment of test.js:17 still maps it.
- When the handle is obtained but `MapViewOfFile` fails, the constructor throws after storing
  the handle. The destructor then never runs, so the handle stays open. `ViewUnavailable`
  carries that handle as `leaked`.

## Model

| member | source | states |
|---|---|---|
| Win32Error.TrimTrailingNewline | src/shared_memory.cpp:34-41 | the result is a prefix of the message that is either the whole message or two characters shorter, and it is shorter exactly when the message has at least two characters and ends in a line feed |
| Win32Error.LastErrorMessage | src/shared_memory.cpp:19-47 | error code zero gives the empty message; otherwise the formatted text loses its last two characters exactly when it has at least two and ends in a line feed, and is unchanged otherwise |
| Win32Error.TrimRemovesCrLf | src/shared_memory.cpp:34-38 | a message ending in carriage return and line feed comes back as its body without them |
| SharedMemory.ToSizeT | src/shared_memory.hpp:97 | storing a signed 64-bit value in `size_t` keeps non-negative values and adds 2^64 to negative ones |
| SharedMemory.SizeGuardAsWritten | src/shared_memory.cpp:88-91 | the guard as written refuses a requested size exactly when it is zero, and otherwise keeps the wrapped unsigned size |
| SharedMemory.ValidateSize | src/shared_memory.cpp:88-91 | the intended check accepts a size exactly when it is positive and keeps it unchanged |
| SharedMemory.PlatformRequest | src/shared_memory.cpp:79-115 | no mapping call is made exactly when the size is zero; otherwise the call uses the qualified name, is a create exactly when the host argument is not an explicit false, and passes the wrapped `size_t` size as high word 0 and low word size mod 2^32 (0xFFFFFFFF for a size of -1) |
| SharedMemory.Construct | src/shared_memory.cpp:77-127 | construction fails with the size error and its text exactly when the size is zero, succeeds exactly when the size is not zero and both the handle and the view were obtained, reports each platform failure as its prefix plus the trimmed system message, and on success yields a valid segment of the wrapped `size_t` size whose name is `Global\` plus the name exactly when global is an explicit true, whose host flag is true unless an explicit false was given, and whose view and handle are the platform's |
| SharedMemory.ConstructIntended | src/shared_memory.cpp:88-91 | the corrected constructor refuses every size that is not positive with the size error, and otherwise behaves as the constructor as written, yielding a valid segment of exactly the requested size |
| SharedMemory.QualifiedName | src/shared_memory.cpp:81-86 | the name is unchanged without the global flag, and is `Global\` followed by the name with it |
| SharedMemory.GlobalFlag | src/shared_memory.cpp:79 | the global flag is set exactly when the argument is an explicit true |
| SharedMemory.HostFlag | src/shared_memory.cpp:93-97 | the role is client exactly when the argument is an explicit false |
| SharedMemory.Destroy | src/shared_memory.cpp:187-195 | the destructor unmaps the view exactly once, as its first call, then closes only a handle that is still set and only that handle, makes no other call, clears the handle, and changes nothing else |
| BufferAccess.Store | src/shared_memory.cpp:140-144 | a write is refused exactly when the input is longer than the segment, leaving the segment unchanged; an accepted write places the input at offset 0, keeps every later byte, and changes nothing but the view |
| BufferAccess.WriteData | src/shared_memory.cpp:129-145 | `writeData` obeys the write rule on the string's bytes or the buffer's bytes |
| BufferAccess.SetString | src/shared_memory.cpp:161-172 | the `data` setter obeys the write rule on the string's bytes and writes no terminator |
| BufferAccess.SetBuffer | src/shared_memory.cpp:174-185 | the `buffer` setter obeys the write rule on the buffer's bytes |
| BufferAccess.TextLength | src/shared_memory.cpp:148 | the text length is at most the view's length, every byte before it is non-zero, and the byte at it (if any) is zero |
| BufferAccess.TextLengthUnique | src/shared_memory.cpp:148 | only one length has those three properties |
| BufferAccess.ScanTextLength | src/shared_memory.cpp:148 | scanning for a zero byte bounded by the view's size stops at the first zero byte or at the end, and agrees with `TextLength` |
| BufferAccess.ReadString | src/shared_memory.cpp:147-152 | `readString` returns a prefix of the view of at most `size` bytes with no zero byte, which stops in front of a zero byte unless it is the whole view |
| BufferAccess.ReadBuffer | src/shared_memory.cpp:154-159 | `readBuffer` returns exactly `size` bytes equal to the view |
| BufferAccess.SetStringTerminated | src/shared_memory.cpp:161-172 | the corrected text setter refuses over-long input unchanged and otherwise stores the text and, when there is room, a zero byte after it, keeping every later byte |
| SegmentProperties.WritePathsAgree | src/shared_memory.cpp:129-185 | `writeData` with a string or a buffer, `setString` and `setBuffer` produce the same result for the same bytes |
| SegmentProperties.FullBufferRoundTrip | test.js:51-58 | writing exactly `size` bytes is accepted and `readBuffer` then returns them |
| SegmentProperties.BufferPrefixRoundTrip | src/shared_memory.cpp:174-185 | after a buffer write that fits, `readBuffer` returns the input followed by the old bytes past it |
| SegmentProperties.TextRoundTripIff | src/shared_memory.cpp:147-172 | a text write reads back as the same text if and only if the text has no zero byte and either fills the segment or is followed by a zero byte that was already there |
| SegmentProperties.LaterWriteSupersedes | src/shared_memory.cpp:140-144 | writing `b` after a write no longer than `b` equals writing `b` alone |
| SegmentProperties.WriteIdempotent | src/shared_memory.cpp:140-144 | repeating an accepted write changes nothing further |
| SegmentProperties.ConstructedSegmentReadsView | src/shared_memory.cpp:123-126 | a segment built from a successful handshake reads back the mapped view |
| SegmentProperties.RequestMatchesConstruct | src/shared_memory.cpp:88-115 | a mapping call is issued exactly when construction does not throw the size error, and a constructed segment has the call's name, is a host exactly when the call was a create, and was created with its own size cut to 32 bits |
| SegmentProperties.DestroyClosesAtMostOnce | src/shared_memory.cpp:189-193 | two releases in a row close the handle at most once, exactly once when it was set, and the calls do not depend on the role |
| SegmentProperties.NegativeSizePassesGuard | src/shared_memory.cpp:88-91 | as written a requested size of -1 passes the guard as 2^64 - 1, while the intended check refuses it |
| SegmentProperties.GuardAdmitsEveryNegativeSize | src/shared_memory.cpp:88-91 | as written every negative size passes the guard, and the intended check refuses every one |
| SegmentProperties.GuardsAgreeOnNonNegative | src/shared_memory.cpp:88-91 | on sizes of zero or more the guard as written and the intended check agree |
| SegmentProperties.ShorterTextReadsStale | src/shared_memory.cpp:161-172 | as written, setting "ab" and then "a" on a zeroed segment reads back "ab" |
| SegmentProperties.TerminatedTextRoundTrip | test.js:21-29 | with the corrected setter, every text without zero bytes that fits reads back exactly, whatever the view held before |

## Left out

- The Windows API calls (`CreateFileMapping`, `OpenFileMapping`, `MapViewOfFile`, `UnmapViewOfFile`, `CloseHandle`, `FormatMessageA`, `GetLastError`, `LocalFree`): foreign calls. Their answers are parameters of `Construct` and `LastErrorMessage`. `PlatformRequest` returns the mapping call the constructor issues, and `Destroy` returns the destructor's calls; the `MapViewOfFile` call and the calls inside `GetLastErrorAsString` are not returned.
- Name collisions and missing mappings: a host's `CreateFileMapping` on an existing name returns that object's handle, and the code never checks `ERROR_ALREADY_EXISTS`, so the host adopts it (test.js:65 relies on this); a client's `OpenFileMapping` fails when no such object exists. Which names exist is kernel state, so both cases reach the model only as the platform's answer (a handle, or an error).
- Sharing between two segments that map the same name, in one process (as in test.js:62-157, and with the segment of test.js:17) or across processes: two `Segment` values never share bytes, because the aliasing of their views comes from the operating system. Concurrent writers are the caller's concern.
- Other platforms: the constructor's `CreateFileMapping`/`OpenFileMapping`/`MapViewOfFile` calls (src/shared_memory.cpp:110-126) stand outside any Windows-only guard, so the file has no non-Windows implementation and builds only on Windows.
- The N-API plumbing: `init`/`DefineClass`, property descriptors, `CHECK_ARGS`, and the type errors of the setters when the argument is not a string or a buffer. These are argument marshalling.
- UTF-8 encoding and decoding of JavaScript strings: a string is its UTF-8 bytes, and `readString` returns bytes.
- The conversion of the JavaScript size by `Int64Value` (truncation, saturation, NaN): the size arrives as a signed 64-bit integer.
- `Construct`: requires the mapped view to hold exactly the stored `size_t` number of bytes when it succeeds. This is how `MapViewOfFile` maps `size` bytes; whether Windows can map a wrapped negative size is not modelled.
- `ToSizeT`: assumes a 64-bit build, where `size_t` wraps modulo 2^64. A 32-bit build wraps modulo 2^32 and is not modelled.
- The `strlen` in `readString` reads past the view when it holds no zero byte. That is undefined behaviour in C, so it is modelled as a scan bounded by the view's size, as the `std::min` intends.
- `generateId` and `generateIdAsync`: declared at src/shared_memory.hpp:27 and :35, defined in no source file modelled here, and never registered by `init` (src/shared_memory.cpp:62-68), so JavaScript cannot reach them.
- src/module.cpp and index.d.ts: module registration and type declarations only.

## Findings

| source | as written | input that shows it | evidently intended | confidence | as-written member | corrected member |
|---|---|---|---|---|---|---|
| src/shared_memory.cpp:88-89 | `size` is a `size_t` (src/shared_memory.hpp:97), so `size <= 0` refuses only 0; a negative request wraps to a huge unsigned size and passes | size -1 becomes 2^64 - 1 and passes the guard | refuse every size that is not positive, as the error text says | high; not executed | SegmentProperties.NegativeSizePassesGuard | SharedMemory.ConstructIntended |
| src/shared_memory.cpp:166-171 | the text setter and `writeData` copy the string's bytes with no terminator, so a shorter text after a longer one reads back with the stale tail | set "ab", then "a", on a zeroed segment: `readString` gives "ab" | text reads back exactly, as the string tests in test.js:21-39 expect | medium (index.js, which test.js loads, is not part of this model); not executed | SegmentProperties.ShorterTextReadsStale | SegmentProperties.TerminatedTextRoundTrip |

=== FILE: buffer_access.dfy ===
/**
  The buffer accessors of a segment: the three write paths, which share one
  bounds rule and one copy, and the two reads.
 */
module BufferAccess {
  import opened Wrappers
  import opened SharedMemory

  const TOO_LARGE_MESSAGE: string := "Could not write to the buffer: The input is bigger than the buffer size"

  /** The only error a write can raise once its argument has the right type, with the text it is raised with. */
  datatype AccessError = InputTooLarge(message: string)

  /** The segment after a write, and whether the write was accepted. */
  datatype WriteResult = WriteResult(segment: Segment, outcome: Outcome<AccessError>)

  /** The argument of `writeData`: a JavaScript string, taken as its UTF-8 bytes, or a `Buffer`. */
  datatype WriteInput = Text(utf8: seq<byte>) | Bytes(data: seq<byte>)

  /**
    The rule every write obeys: input longer than the segment is refused and
    nothing changes; otherwise the input occupies the first bytes of the view,
    every later byte keeps its value, and nothing but the view changes.
   */
  ghost predicate WriteRule(s: Segment, data: seq<byte>, r: WriteResult)
    requires s.Valid()
  {
    && (r.outcome.Fail? <==> |data| > s.size)
    && (r.outcome.Fail? ==> r.outcome.error == InputTooLarge(TOO_LARGE_MESSAGE) && r.segment == s)
    && (r.outcome.Pass? ==>
          && r.segment.Valid()
          && r.segment.(buf := s.buf) == s
          && r.segment.buf[..|data|] == data
          && r.segment.buf[|data|..] == s.buf[|data|..])
  }

  /** The bounds check followed by the copy to offset 0, with no terminator. */
  function Store(s: Segment, data: seq<byte>): (r: WriteResult)
    requires s.Valid()
    ensures WriteRule(s, data, r)
  {
    if |data| > s.size then WriteResult(s, Fail(InputTooLarge(TOO_LARGE_MESSAGE)))
    else
      var buf := data + s.buf[|data|..];
      assert buf[..|data|] == data && buf[|data|..] == s.buf[|data|..];
      WriteResult(s.(buf := buf), Pass)
  }

  /** `writeData`: a string is copied as its bytes, a `Buffer` as is. */
  function WriteData(s: Segment, input: WriteInput): (r: WriteResult)
    requires s.Valid()
    ensures WriteRule(s, if input.Text? then input.utf8 else input.data, r)
  {
    match input
    case Text(utf8) => Store(s, utf8)
    case Bytes(data) => Store(s, data)
  }

  /** The `data` property setter, given the string's UTF-8 bytes. */
  function SetString(s: Segment, utf8: seq<byte>): (r: WriteResult)
    requires s.Valid()
    ensures WriteRule(s, utf8, r)
  {
    Store(s, utf8)
  }

  /** The `buffer` property setter. */
  function SetBuffer(s: Segment, data: seq<byte>): (r: WriteResult)
    requires s.Valid()
    ensures WriteRule(s, data, r)
  {
    Store(s, data)
  }

  /**
    The length of the text at the start of `buf`: the index of the first zero
    byte, or the whole length when there is none.
   */
  function TextLength(buf: seq<byte>): (n: nat)
    ensures n <= |buf|
    ensures forall i :: 0 <= i < n ==> buf[i] != 0
    ensures n < |buf| ==> buf[n] == 0
  {
    if |buf| == 0 || buf[0] == 0 then 0 else 1 + TextLength(buf[1..])
  }

  /** Only one length has the three properties of `TextLength`. */
  lemma TextLengthUnique(buf: seq<byte>, n: nat)
    requires n <= |buf|
    requires forall i :: 0 <= i < n ==> buf[i] != 0
    requires n < |buf| ==> buf[n] == 0
    ensures n == TextLength(buf)
  {
  }

  /** `min(strlen(buffer), size)` as a scan that stops at the first zero byte or at the end of the view. */
  method ScanTextLength(buf: seq<byte>) returns (n: nat)
    ensures n <= |buf|
    ensures forall i :: 0 <= i < n ==> buf[i] != 0
    ensures n < |buf| ==> buf[n] == 0
    ensures n == TextLength(buf)
  {
    n := 0;
    while n < |buf| && buf[n] != 0
      invariant n <= |buf|
      invariant forall i :: 0 <= i < n ==> buf[i] != 0
    {
      n := n + 1;
    }
    TextLengthUnique(buf, n);
  }

  /** `readString`: the bytes before the first zero byte, or all of them if there is none. */
  function ReadString(s: Segment): (r: seq<byte>)
    requires s.Valid()
    ensures |r| <= s.size
    ensures r == s.buf[..|r|]
    ensures forall i :: 0 <= i < |r| ==> r[i] != 0
    ensures |r| < s.size ==> s.buf[|r|] == 0
  {
    s.buf[..TextLength(s.buf)]
  }

  /** `readBuffer`: a copy of the whole view, whatever its bytes. */
  function ReadBuffer(s: Segment): (r: seq<byte>)
    requires s.Valid()
    ensures |r| == s.size
    ensures forall i :: 0 <= i < s.size ==> r[i] == s.buf[i]
  {
    s.buf
  }

  /**
    A text write that also stores a zero byte after the text when there is room
    for one, which is what a truncating `readString` needs to read the text back.
   */
  function SetStringTerminated(s: Segment, utf8: seq<byte>): (r: WriteResult)
    requires s.Valid()
    ensures r.outcome.Fail? <==> |utf8| > s.size
    ensures r.outcome.Fail? ==> r.outcome.error == InputTooLarge(TOO_LARGE_MESSAGE) && r.segment == s
    ensures r.outcome.Pass? ==>
      && r.segment.Valid()
      && r.segment.(buf := s.buf) == s
      && r.segment.buf[..|utf8|] == utf8
      && (|utf8| < s.size ==> r.segment.buf[|utf8|] == 0 && r.segment.buf[|utf8| + 1..] == s.buf[|utf8| + 1..])
  {
    if |utf8| < s.size then
      var r := Store(s, utf8 + [0]);
      assert r.segment.buf[..|utf8|] == (utf8 + [0])[..|utf8|] == utf8;
      r
    else Store(s, utf8)
  }
}

=== FILE: properties.dfy ===
/**
  Properties that relate several operations on a segment: the write paths
  agree, writes read back, later writes supersede earlier ones, the handle is
  closed at most once, and the two places where the program departs from what
  it evidently intends.
 */
module SegmentProperties {
  import opened Wrappers
  import opened SharedMemory
  import opened BufferAccess

  /** No byte of `t` is zero. */
  predicate NoZeroByte(t: seq<byte>) {
    forall i :: 0 <= i < |t| ==> t[i] != 0
  }

  /** `writeData` with a string or a buffer and both setters have the same effect for the same bytes. */
  lemma WritePathsAgree(s: Segment, data: seq<byte>)
    requires s.Valid()
    ensures WriteData(s, Text(data)) == WriteData(s, Bytes(data)) == SetString(s, data) == SetBuffer(s, data)
  {
  }

  /** Writing exactly `size` bytes and reading the buffer back yields those bytes. */
  lemma FullBufferRoundTrip(s: Segment, data: seq<byte>)
    requires s.Valid() && |data| == s.size
    ensures WriteData(s, Bytes(data)).outcome == Pass
    ensures ReadBuffer(WriteData(s, Bytes(data)).segment) == data
  {
  }

  /** A shorter write reads back as the first bytes of the buffer, the rest being what was there. */
  lemma BufferPrefixRoundTrip(s: Segment, data: seq<byte>)
    requires s.Valid() && |data| <= s.size
    ensures ReadBuffer(SetBuffer(s, data).segment) == data + s.buf[|data|..]
  {
  }

  /**
    A text write reads back as the same text exactly when the text holds no
    zero byte and either fills the segment or lands in front of a zero byte
    that was already there: the write itself stores no terminator.
   */
  lemma TextRoundTripIff(s: Segment, t: seq<byte>)
    requires s.Valid() && |t| <= s.size
    ensures ReadString(SetString(s, t).segment) == t <==>
      NoZeroByte(t) && (|t| == s.size || s.buf[|t|] == 0)
  {
  }

  /** Writing `b` after a write no longer than it gives the same segment as writing `b` alone. */
  lemma LaterWriteSupersedes(s: Segment, a: seq<byte>, b: seq<byte>)
    requires s.Valid() && |a| <= |b| <= s.size
    ensures Store(Store(s, a).segment, b) == Store(s, b)
  {
  }

  /** A successful write followed by the same write changes nothing more. */
  lemma WriteIdempotent(s: Segment, data: seq<byte>)
    requires s.Valid() && |data| <= s.size
    ensures Store(Store(s, data).segment, data) == Store(s, data)
  {
  }

  /** A freshly constructed segment reads back the view the platform mapped. */
  lemma ConstructedSegmentReadsView(args: ConstructorArgs, platform: Platform)
    requires args.size != 0 && platform.mapping.Success? && platform.view.Success?
    requires |platform.view.value| == ToSizeT(args.size)
    ensures Construct(args, platform).Success?
    ensures ReadBuffer(Construct(args, platform).value) == platform.view.value
  {
  }

  /**
    The constructor issues a mapping call exactly when it does not throw the
    size error, and a constructed segment carries the name the call used, is a
    host exactly when the call was a create, and was created with its own size
    cut to 32 bits.
   */
  lemma RequestMatchesConstruct(args: ConstructorArgs, platform: Platform)
    requires platform.view.Success? && args.size != 0 ==> |platform.view.value| == ToSizeT(args.size)
    ensures PlatformRequest(args).None? <==> Construct(args, platform).Failure? && Construct(args, platform).error.SizeNotPositive?
    ensures Construct(args, platform).Success? ==>
      var seg := Construct(args, platform).value;
      var call := PlatformRequest(args).value;
      && PlatformRequest(args).Some?
      && call.name == seg.name
      && (call.CreateFileMapping? <==> seg.isHost)
      && (call.CreateFileMapping? ==> call.maximumSizeLow == seg.size % DWORD_MODULUS)
  {
  }

  /**
    Running the destructor's release twice closes the handle at most once, and
    exactly once for a constructed segment, for host and client alike.
   */
  lemma DestroyClosesAtMostOnce(s: Segment)
    ensures CloseCount(Destroy(s).calls + Destroy(Destroy(s).segment).calls) <= 1
    ensures s.handle.Some? ==> CloseCount(Destroy(s).calls + Destroy(Destroy(s).segment).calls) == 1
    ensures Destroy(s).calls == Destroy(s.(isHost := !s.isHost)).calls
  {
  }

  /** As written, a size of -1 passes the guard and becomes the largest `size_t`; the intended check refuses it. */
  lemma NegativeSizePassesGuard()
    ensures SizeGuardAsWritten(-1) == Some(SIZE_T_MODULUS - 1)
    ensures ValidateSize(-1) == None
  {
  }

  /** Every negative size passes the guard as written. */
  lemma GuardAdmitsEveryNegativeSize(requested: int64)
    requires requested < 0
    ensures SizeGuardAsWritten(requested).Some?
    ensures ValidateSize(requested).None?
  {
  }

  /** On non-negative sizes the guard as written and the intended check agree. */
  lemma GuardsAgreeOnNonNegative(requested: int64)
    requires requested >= 0
    ensures SizeGuardAsWritten(requested) == ValidateSize(requested)
  {
  }

  /**
    As written, setting the text "ab" and then "a" on a zeroed segment reads
    back "ab": the second write leaves the stale "b" in front of the zero byte.
   */
  lemma ShorterTextReadsStale()
    ensures
      var s0 := Segment("m", 4, true, false, [0, 0, 0, 0], Some(Handle(0)));
      var s1 := SetString(s0, [97, 98]).segment;
      var s2 := SetString(s1, [97]).segment;
      ReadString(s2) == [97, 98] != [97]
  {
  }

  /** With a terminator written, any text without zero bytes that fits reads back exactly, whatever was there before. */
  lemma TerminatedTextRoundTrip(s: Segment, t: seq<byte>)
    requires s.Valid() && |t| <= s.size && NoZeroByte(t)
    ensures SetStringTerminated(s, t).outcome == Pass
    ensures ReadString(SetStringTerminated(s, t).segment) == t
  {
  }
}

=== FILE: shared_memory.dfy ===
/**
  One shared memory segment of the Windows build of the `shared_memory` class:
  its state, the constructor's argument handling and platform handshake, and
  the destructor's release of the mapping.

  The operating system is not modelled. The constructor is told what
  `CreateFileMapping`/`OpenFileMapping` and `MapViewOfFile` answered, and it
  states which of the two mapping calls it would issue.
 */
module SharedMemory {
  import opened Wrappers
  import opened Win32Error

  type byte = bv8

  /** `Value.Int64Value()` yields a signed 64-bit integer. */
  newtype int64 = x: int | -0x8000_0000_0000_0000 <= x < 0x8000_0000_0000_0000

  /** Values of `size_t` on a 64-bit build are taken modulo this. */
  const SIZE_T_MODULUS: int := 0x1_0000_0000_0000_0000

  /** A `DWORD` argument keeps the low 32 bits of the value passed. */
  const DWORD_MODULUS: int := 0x1_0000_0000

  /** The prefix of names in the system-wide kernel object namespace: `Global` and one backslash. */
  const GLOBAL_PREFIX: string := "Global\\"

  const SIZE_MESSAGE: string := "The buffer size must be greater than zero"
  const HANDLE_MESSAGE_PREFIX: string := "Could not get/create the memory handle: "
  const VIEW_MESSAGE_PREFIX: string := "Could not get/create the data buffer: "

  /** An opaque file-mapping handle. */
  datatype Handle = Handle(id: nat)

  /**
    A constructed segment: the exposed `name`, `size`, `host` and `global`
    attributes, the mapped bytes, and the mapping handle (None once closed).
   */
  datatype Segment = Segment(
    name: string,
    size: nat,
    isHost: bool,
    global: bool,
    buf: seq<byte>,
    handle: Option<Handle>)
  {
    /** The view holds exactly `size` bytes, and there is at least one. */
    predicate Valid() {
      size > 0 && |buf| == size
    }
  }

  /**
    The constructor's arguments. A third or fourth argument that is missing or
    not a boolean is None.
   */
  datatype ConstructorArgs = ConstructorArgs(name: string, size: int64, global: Option<bool>, host: Option<bool>)

  /** The mapping call the constructor issues. */
  datatype MappingRequest =
    | CreateFileMapping(name: string, maximumSizeHigh: nat, maximumSizeLow: nat)
    | OpenFileMapping(name: string)

  /**
    A failed Windows call: the code `GetLastError` reports and the text
    `FormatMessageA` produces for it.
   */
  datatype OsError = OsError(code: nat, formatted: string)

  /** The message `GetLastErrorAsString` builds for a failed call. */
  function ErrorText(e: OsError): string {
    LastErrorMessage(e.code, e.formatted)
  }

  /**
    What the operating system answered: the mapping handle or the error, then
    the mapped view's contents or the error.
   */
  datatype Platform = Platform(mapping: Result<Handle, OsError>, view: Result<seq<byte>, OsError>)

  /**
    Construction errors, each with the text it is raised with. A failed view
    leaves the handle open: the constructor throws after storing it, so the
    destructor never runs for that object.
   */
  datatype ConstructError =
    | SizeNotPositive(message: string)
    | HandleUnavailable(message: string)
    | ViewUnavailable(message: string, leaked: Handle)

  /** The name is moved into the global namespace when the global flag is set. */
  function QualifiedName(name: string, global: bool): (r: string)
    ensures !global ==> r == name
    ensures global ==> |r| == |GLOBAL_PREFIX| + |name| && r[..|GLOBAL_PREFIX|] == GLOBAL_PREFIX && r[|GLOBAL_PREFIX|..] == name
  {
    if global then GLOBAL_PREFIX + name else name
  }

  /** The global flag is set only by an explicit `true`. */
  function GlobalFlag(arg: Option<bool>): (r: bool)
    ensures r <==> arg == Some(true)
  {
    match arg
    case Some(b) => b
    case None => false
  }

  /** The role is host unless an explicit boolean says otherwise. */
  function HostFlag(arg: Option<bool>): (r: bool)
    ensures !r <==> arg == Some(false)
  {
    match arg
    case Some(b) => b
    case None => true
  }

  /**
    The requested size as the program stores it: in an unsigned `size_t`,
    where a negative value wraps around.
   */
  function ToSizeT(v: int64): (r: nat)
    ensures r < SIZE_T_MODULUS
    ensures v >= 0 ==> r == v as int
    ensures v < 0 ==> r == v as int + SIZE_T_MODULUS
  {
    (v as int) % SIZE_T_MODULUS
  }

  /** `size <= 0` on an unsigned value: only a zero size is refused. */
  function SizeGuardAsWritten(requested: int64): (r: Option<nat>)
    ensures r.None? <==> requested == 0
    ensures r.Some? ==> r.value == ToSizeT(requested) && r.value > 0
  {
    var size := ToSizeT(requested);
    if size <= 0 then None else Some(size)
  }

  /** The check as intended, used by `ConstructIntended`: every size that is not positive is refused. */
  function ValidateSize(requested: int64): (r: Option<nat>)
    ensures r.Some? <==> requested > 0
    ensures r.Some? ==> r.value == requested as int
  {
    if requested <= 0 then None else Some(requested as int)
  }

  /**
    The mapping call a constructor with these arguments issues, or None when
    the size guard throws first. A host creates a mapping whose maximum size is
    passed as two `DWORD`s, the high one a literal zero and the low one the
    stored size cut to 32 bits; a client opens one.
   */
  function PlatformRequest(args: ConstructorArgs): (r: Option<MappingRequest>)
    ensures r.None? <==> args.size == 0
    ensures r.Some? ==> r.value.name == QualifiedName(args.name, GlobalFlag(args.global))
    ensures r.Some? ==> (r.value.CreateFileMapping? <==> args.host != Some(false))
    ensures r.Some? && r.value.CreateFileMapping? ==>
      && r.value.maximumSizeHigh == 0
      && r.value.maximumSizeLow == ToSizeT(args.size) % DWORD_MODULUS
      && (0 <= args.size as int < DWORD_MODULUS ==> r.value.maximumSizeLow == args.size as int)
      && (args.size == -1 ==> r.value.maximumSizeLow == DWORD_MODULUS - 1)
  {
    match SizeGuardAsWritten(args.size)
    case None => None
    case Some(size) =>
      var name := QualifiedName(args.name, GlobalFlag(args.global));
      if HostFlag(args.host) then Some(CreateFileMapping(name, 0, size % DWORD_MODULUS))
      else Some(OpenFileMapping(name))
  }

  /**
    The constructor as written: resolve the flags and the name, apply the size
    guard, then take the handle and the view the platform handed back. A
    negative size passes the guard and is stored wrapped around.
   */
  function Construct(args: ConstructorArgs, platform: Platform): (r: Result<Segment, ConstructError>)
    requires platform.view.Success? && args.size != 0 ==> |platform.view.value| == ToSizeT(args.size)
    ensures r == Failure(SizeNotPositive(SIZE_MESSAGE)) <==> args.size == 0
    ensures r.Success? <==> args.size != 0 && platform.mapping.Success? && platform.view.Success?
    ensures args.size != 0 && platform.mapping.Failure? ==>
      r == Failure(HandleUnavailable(HANDLE_MESSAGE_PREFIX + ErrorText(platform.mapping.error)))
    ensures args.size != 0 && platform.mapping.Success? && platform.view.Failure? ==>
      r == Failure(ViewUnavailable(VIEW_MESSAGE_PREFIX + ErrorText(platform.view.error), platform.mapping.value))
    ensures r.Success? ==>
      && r.value.Valid()
      && r.value.size == ToSizeT(args.size)
      && (args.size > 0 ==> r.value.size == args.size as int)
      && r.value.global == (args.global == Some(true))
      && r.value.isHost == (args.host != Some(false))
      && r.value.name == (if args.global == Some(true) then GLOBAL_PREFIX + args.name else args.name)
      && r.value.handle == Some(platform.mapping.value)
      && r.value.buf == platform.view.value
  {
    var global := GlobalFlag(args.global);
    var name := QualifiedName(args.name, global);
    match SizeGuardAsWritten(args.size)
    case None => Failure(SizeNotPositive(SIZE_MESSAGE))
    case Some(size) =>
      var isHost := HostFlag(args.host);
      match platform.mapping
      case Failure(e) => Failure(HandleUnavailable(HANDLE_MESSAGE_PREFIX + ErrorText(e)))
      case Success(handle) =>
        match platform.view
        case Failure(e) => Failure(ViewUnavailable(VIEW_MESSAGE_PREFIX + ErrorText(e), handle))
        case Success(bytes) => Success(Segment(name, size, isHost, global, bytes, Some(handle)))
  }

  /**
    The constructor with the intended size check: every size that is not
    positive is refused before any platform call; every other request behaves
    as the constructor as written.
   */
  function ConstructIntended(args: ConstructorArgs, platform: Platform): (r: Result<Segment, ConstructError>)
    requires platform.view.Success? && args.size > 0 ==> |platform.view.value| == args.size as int
    ensures r == Failure(SizeNotPositive(SIZE_MESSAGE)) <==> args.size <= 0
    ensures r.Success? ==> r.value.Valid() && r.value.size == args.size as int
    ensures args.size > 0 ==> r == Construct(args, platform)
  {
    match ValidateSize(args.size)
    case None => Failure(SizeNotPositive(SIZE_MESSAGE))
    case Some(_) => Construct(args, platform)
  }

  /** The operating system calls the destructor makes. */
  datatype OsCall = UnmapViewOfFile | CloseHandle(handle: Handle)

  /** The state after the destructor and the calls it made, in order. */
  datatype Teardown = Teardown(segment: Segment, calls: seq<OsCall>)

  /** How many handle closes a sequence of calls holds. */
  function CloseCount(calls: seq<OsCall>): nat {
    if |calls| == 0 then 0
    else (if calls[0].CloseHandle? then 1 else 0) + CloseCount(calls[1..])
  }

  /**
    The destructor: unmap the view, then close the handle only when it is
    still set, and clear it. The role plays no part.
   */
  function Destroy(s: Segment): (r: Teardown)
    ensures r.segment == s.(handle := None)
    ensures |r.calls| >= 1 && r.calls[0] == UnmapViewOfFile
    ensures |r.calls| == 1 + CloseCount(r.calls)
    ensures forall i :: 1 <= i < |r.calls| ==> r.calls[i].CloseHandle?
    ensures CloseCount(r.calls) == (if s.handle.Some? then 1 else 0)
    ensures forall i :: 0 <= i < |r.calls| && r.calls[i].CloseHandle? ==> s.handle == Some(r.calls[i].handle)
  {
    match s.handle
    case None =>
      assert CloseCount([UnmapViewOfFile]) == CloseCount([]);
      Teardown(s.(handle := None), [UnmapViewOfFile])
    case Some(h) =>
      var calls := [UnmapViewOfFile, CloseHandle(h)];
      assert calls[1..] == [CloseHandle(h)] && calls[1..][1..] == [];
      assert CloseCount([CloseHandle(h)]) == 1 + CloseCount([]);
      Teardown(s.(handle := None), calls)
  }
}

=== FILE: win32_error.dfy ===
/**
  The pure part of `GetLastErrorAsString`: turning a Windows error code and the
  text `FormatMessageA` produced for it into the message the binding reports.
 */
module Win32Error {

  /**
    Windows system messages end in a carriage return and a line feed. When the
    message has at least two characters and its last one is a line feed, the
    last two characters are dropped; otherwise the message is kept as is. The
    test looks only at the line feed, so a message ending in a bare line feed
    loses the character before it as well.
   */
  function TrimTrailingNewline(message: string): (r: string)
    ensures r <= message
    ensures |r| == |message| || |r| + 2 == |message|
    ensures |r| + 2 == |message| <==> 2 <= |message| && message[|message| - 1] == '\n'
  {
    if |message| >= 2 && message[|message| - 1] == '\n' then message[..|message| - 2] else message
  }

  /**
    The message for error code `errorId`, given the text the system formatted
    for it. Code zero means no error was recorded and yields the empty text.
   */
  function LastErrorMessage(errorId: nat, formatted: string): (r: string)
    ensures errorId == 0 ==> r == ""
    ensures errorId != 0 ==> r <= formatted && |formatted| - 2 <= |r|
    ensures errorId != 0 && 2 <= |formatted| && formatted[|formatted| - 1] == '\n' ==> r == formatted[..|formatted| - 2]
    ensures errorId != 0 && (|formatted| < 2 || formatted[|formatted| - 1] != '\n') ==> r == formatted
  {
    if errorId == 0 then "" else TrimTrailingNewline(formatted)
  }

  /** A message ending in the Windows line terminator comes back without it. */
  lemma TrimRemovesCrLf(body: string)
    ensures TrimTrailingNewline(body + "\r\n") == body
  {
  }
}

=== FILE: wrappers.dfy ===
/** Small failure-carrying datatypes used across the model. */
module Wrappers {

  /** An optional value: the absent case stands for a null handle or a missing argument. */
  datatype Option<+T> = None | Some(value: T)

  /** The outcome of an operation that yields a value or fails with an error. */
  datatype Result<+R, +E> = Success(value: R) | Failure(error: E)

  /** The outcome of an operation that yields nothing on success. */
  datatype Outcome<+E> = Pass | Fail(error: E)
}
